=== FILE: README.md ===
# audio-video-stream: player and chat state machines in Dafny

This project models the three pieces of real logic in the audio-video-stream
repository and proves properties of them:

- **The video player** (`video-player/player.cpp`): the playback state
  (`current_seconds`, `duration_seconds`, `eof`, and the main loop's `paused`
  and `running` flags), `seek_to` with its target clamping, the state effects
  of `decode_one_frame`, the decode gate of each main-loop iteration, the
  keyboard and mouse dispatch over the fixed control layout (`point_in_rect`,
  back/forward buttons, seek bar), and the progress fill of the seek bar.
  Modules `VideoPlayer` (`video_player.dfy`) and `Controls` (`controls.dfy`),
  with `std::clamp`/`std::max` in `Numeric` (`numeric.dfy`).
- **The chat client** (`media-stream/chat_client.cpp`): the state
  `sock_fd_`/`connected_`/`receiver_running_` plus whether `receiver_thread_`
  is still joinable, the guards of `Connect`,
  `SendLine`, `StartReceiver`, `StopReceiver`, `Disconnect`, `IsConnected`,
  the newline framing of `SendLine`, and how `ReceiveLoop` ends. Module
  `ChatClient` (`chat_client.dfy`).
- **The chat server** (`media-stream/server.cpp`): the registry of client
  descriptors, `remove_client`, the recipients of `broadcast_message`, the
  `"Client" + counter` labels of the accept loop, the join/relay/leave
  messages and what one `handle_client` broadcasts over its life. Modules
  `ChatServer` (`chat_server.dfy`) and `Decimal` (`decimal.dfy`, the
  `std::to_string` of the label counter and its inverse).

Everything is modelled as immutable records and pure transition functions;
the receive loop and the broadcast loop are methods with loop invariants.
Calls into FFmpeg, SDL and the socket API are not modelled: their outcomes
are parameters (`seekOk`, the packets the demuxer still holds and what the
decoder makes of each, the frame timestamp already converted to seconds, the
descriptor returned by `socket()`/`accept()`, whether `inet_pton`,
`connect()` and `send()` succeed, the results of `recv()`). Seconds are
mathematical reals, not IEEE doubles; descriptors, counters and pixel
coordinates are unbounded integers.

## Model

| member | source | states |
|---|---|---|
| `Numeric.Clamp` | video-player/player.cpp:174 | `std::clamp` yields a value in [lo, hi], returns an in-range value unchanged, and sends values below/above to lo/hi |
| `Numeric.ClampIsNearest` | video-player/player.cpp:174 | the clamped value is the point of [lo, hi] nearest to the input |
| `VideoPlayer.Open` | video-player/player.cpp:82-84 | a freshly opened player is at 0 s, not at end of stream, unpaused and running; the duration is known exactly when the container reports a positive one; the playhead invariant holds |
| `VideoPlayer.SeekTarget` | video-player/player.cpp:173-177 | the seek target lies in [0, duration] when the duration is known and in [0, ∞) otherwise; an in-range target is kept, a negative one becomes 0, one past the end becomes the duration |
| `VideoPlayer.SeekTargetIsNearest` | video-player/player.cpp:173-177 | the clamped target is the admissible position nearest to the requested one |
| `VideoPlayer.SeekTo` | video-player/player.cpp:172-186 | a successful seek moves the playhead to the clamped target and clears `eof`; a failed seek changes nothing; duration and pause flag are never touched |
| `VideoPlayer.FirstStop` | video-player/player.cpp:132-155 | finds the first packet that ends the read loop: all packets before it are skipped (other stream, refused by the decoder, EAGAIN) |
| `VideoPlayer.StampSeconds` | video-player/player.cpp:160-167 | a frame timestamp is clamped into [0, duration] when the duration is known (a negative one becomes 0, one past the end becomes the duration) and taken as it is otherwise |
| `VideoPlayer.DecodeOneFrame` | video-player/player.cpp:131-170 | with no packet left to stop the loop the call sets `eof` and returns false; otherwise it consumes up to the first non-skipped packet, leaves `eof` alone, returns true exactly for a frame, moves the playhead only for a frame with a timestamp, and keeps the playhead invariant |
| `VideoPlayer.Advance` | video-player/player.cpp:322-326 | a tick decodes only when neither paused nor at end of stream; otherwise the state and the unread packets are untouched |
| `VideoPlayer.EndOfStreamIsSticky` | video-player/player.cpp:133-136 | once reading runs out, `eof` is set and a later tick reads none of whatever packets it is offered |
| `VideoPlayer.SeekReopensStream` | video-player/player.cpp:181-185 | after a successful seek an unpaused player decodes again on the next tick |
| `VideoPlayer.SeekResumesAfterEndOfStream` | video-player/player.cpp:302-326 | a player at end of stream that gets a successful Left-arrow seek decodes in the same iteration and shows the next frame's timestamp |
| `VideoPlayer.ClickTarget` | video-player/player.cpp:304-318 | a left click asks for a seek exactly when it hits the back button, the forward button, or the seek bar of a media of known length; the back and forward buttons ask for current ∓ 10 s and a bar hit for the bar target, a position in [0, duration) |
| `VideoPlayer.SeekBarTarget` | video-player/player.cpp:314-317 | a click inside the bar seeks to the click's bar ratio times the duration, which lies in [0, duration), and the bar's left edge maps to 0 |
| `VideoPlayer.HandleEvent` | video-player/player.cpp:297-319 | only quit stops the loop, only space flips the pause flag, the playhead and `eof` move only through a successful seek caused by an arrow key or a click on a control, and the playhead invariant is kept |
| `VideoPlayer.SpaceTwiceRestores` | video-player/player.cpp:301 | pressing space twice gives back the original state |
| `VideoPlayer.StepSeeks` | video-player/player.cpp:302-313 | Left and the back button seek to current − 10 s; Right and the forward button seek to current + 10 s |
| `VideoPlayer.SeekBarClick` | video-player/player.cpp:314-317 | a successful click on the bar of a media of known length leaves the playhead in [0, duration) and clears `eof`; with unknown length the bar does nothing |
| `VideoPlayer.HandleEvents` | video-player/player.cpp:297-320 | handling all pending events keeps the duration and the playhead invariant, stops the loop exactly when one of them is a quit, and leaves the pause flag alone when no key was pressed |
| `VideoPlayer.Tick` | video-player/player.cpp:295-326 | one main-loop iteration keeps the duration and the playhead invariant, stops the loop exactly when a quit arrives, and leaves the pause flag alone without key presses |
| `VideoPlayer.Run` | video-player/player.cpp:295-337 | the main loop, each iteration with its own events and packets, keeps the duration, does nothing once stopped, and never changes the pause flag when no key is pressed |
| `VideoPlayer.RunKeepsInvariant` | video-player/player.cpp:295-337 | any sequence of iterations, each with its own events and packets, keeps the playhead in [0, duration] when the duration is known |
| `VideoPlayer.Progress` | video-player/player.cpp:332 | progress is 0 when the duration is unknown and otherwise the fraction that times the duration gives the playhead; it lies in [0, 1] under the playhead invariant and is 1 at the end |
| `VideoPlayer.ProgressFill` | video-player/player.cpp:219-226 | the drawn fill lies in [0, bar width] and is empty when the duration is unknown |
| `VideoPlayer.ProgressFillMonotonic` | video-player/player.cpp:226 | a later playhead never draws a shorter fill |
| `Numeric.MaxInt` | video-player/player.cpp:219 | `std::max` on ints is at least each argument and equal to one of them |
| `Controls.PointInRect` | video-player/player.cpp:235-237 | a point is inside exactly when it lies in the half-open column and row ranges of the rectangle, which is then non-empty |
| `Controls.BackButtonRect` | video-player/player.cpp:212 | the back button is 80 by 42 pixels at (20, video height + 20), inside the 90-pixel control strip and left of the forward button |
| `Controls.ForwardButtonRect` | video-player/player.cpp:213 | the forward button is 80 by 42 pixels at (120, video height + 20), inside the control strip and left of the bar |
| `Controls.SeekBarRect` | video-player/player.cpp:217-221 | the bar is 12 pixels high at (230, video height + 35), as wide as `SeekBarWidth`, at least 60 pixels, and inside the control strip |
| `Controls.PointInRectHalfOpen` | video-player/player.cpp:235-237 | the left and top edges are inside a rectangle, the right and bottom edges are outside |
| `Controls.EmptyRectContainsNothing` | video-player/player.cpp:235-237 | a rectangle without width or height contains no point |
| `Controls.SeekBarWidth` | video-player/player.cpp:219 | the bar is at least 60 pixels wide and otherwise reaches 30 pixels short of the right edge |
| `Controls.HitTest` | video-player/player.cpp:310-318 | the back/forward/bar priority chain answers each control exactly when the click lies inside it, so at most one action fires per click |
| `Controls.ControlsDisjoint` | video-player/player.cpp:305-307 | no point lies in two of the three controls |
| `Controls.SeekBarRatio` | video-player/player.cpp:315-316 | the ratio of a click inside the bar times the bar width is the click's offset from the bar's left edge; it lies in [0, 1) and is 0 at the left edge |
| `Controls.SeekBarRatioMonotonic` | video-player/player.cpp:315-316 | clicking further right never gives a smaller ratio |
| `Controls.FillWidth` | video-player/player.cpp:226 | the fill width is the bar width times the clamped progress, truncated to an integer (the largest integer not above the product); it lies in [0, bar width], is 0 for progress ≤ 0 and the full width for progress ≥ 1 |
| `Controls.FillWidthMonotonic` | video-player/player.cpp:226 | more progress never gives a narrower fill |
| `ChatClient.New` | media-stream/chat_client.cpp:15 | a new client has descriptor −1, is not connected, has no receiver running and no thread to join, and is valid |
| `ChatClient.IsConnected` | media-stream/chat_client.cpp:95 | reports the connected flag, which in a valid state implies an open descriptor |
| `ChatClient.Connect` | media-stream/chat_client.cpp:19-49 | connecting an already connected client changes nothing and succeeds; otherwise it succeeds exactly when socket creation, address parsing and `connect()` all succeed, a success records the descriptor and sets connected, and any failure leaves descriptor −1 and not connected |
| `ChatClient.Frame` | media-stream/chat_client.cpp:56-59 | the transmitted line always ends in a newline and starts with the text; exactly one newline is added iff the text is empty or does not end in one, otherwise the text is sent unchanged |
| `ChatClient.FrameIdempotent` | media-stream/chat_client.cpp:56-59 | framing an already framed line changes nothing |
| `ChatClient.FrameIsShortest` | media-stream/chat_client.cpp:56-59 | the framed line is the shortest newline-terminated extension of the text |
| `ChatClient.ConnectAndStartAreOnce` | media-stream/chat_client.cpp:19-76 | after a successful connect of a client with no thread, later connects succeed without touching the socket, the receiver can be started, and a second start does nothing |
| `ChatClient.RestartAfterHangupAborts` | media-stream/chat_client.cpp:69-76 | after the receiver ended on its own at a hangup, reconnecting and starting the receiver again assigns over a joinable thread, which terminates the process |
| `ChatClient.RestartAfterStopStarts` | media-stream/chat_client.cpp:69-83 | once `StopReceiver` has joined the old thread, a connected client starts a new receiver |
| `ChatClient.SendLine` | media-stream/chat_client.cpp:51-67 | without a connection or a descriptor nothing is sent and false is returned; otherwise the framed line is sent, the result is the send's success, and a failed send clears connected |
| `ChatClient.SendFailureIsFinal` | media-stream/chat_client.cpp:61-65 | after a failed send every later send is refused without transmitting |
| `ChatClient.StartReceiver` | media-stream/chat_client.cpp:69-76 | nothing happens unless connected and not running; otherwise a still-joinable old thread makes the assignment terminate the process, and without one the receiver starts and its thread becomes joinable |
| `ChatClient.StopReceiver` | media-stream/chat_client.cpp:78-83 | stopping clears the receiver flag and joins the thread, and touches neither the descriptor nor the connected flag |
| `ChatClient.Disconnect` | media-stream/chat_client.cpp:85-93 | afterwards no receiver runs or waits to be joined, the client is not connected and the descriptor is −1; the descriptor is shut down and closed exactly when it was valid |
| `ChatClient.DisconnectIdempotent` | media-stream/chat_client.cpp:85-93 | a second disconnect closes nothing and changes nothing |
| `ChatClient.DisconnectedIsInert` | media-stream/chat_client.cpp:85-95 | a disconnected client reports not connected, refuses to send and refuses to start a receiver |
| `ChatClient.ReceiveLoop` | media-stream/chat_client.cpp:97-114 | the loop runs only while running and connected, delivers the received texts in order up to the first `recv` ≤ 0, clears connected exactly when it met one, and always leaves the receiver flag cleared and the thread unjoined |
| `ChatServer.RemoveClient` | media-stream/server.cpp:20-23 | the registry never grows and no longer holds the removed descriptor |
| `ChatServer.RemoveClientContents` | media-stream/server.cpp:20-23 | removal drops every occurrence of the descriptor and keeps every other entry with its multiplicity |
| `ChatServer.RemoveClientMembers` | media-stream/server.cpp:20-23 | the survivors are exactly the registered descriptors other than the removed one |
| `ChatServer.RemoveClientAppend` | media-stream/server.cpp:20-23 | removal distributes over concatenation, so the survivors keep their relative order |
| `ChatServer.RemoveAbsentClient` | media-stream/server.cpp:20-23 | removing an unregistered descriptor leaves the registry unchanged |
| `ChatServer.RemoveClientIdempotent` | media-stream/server.cpp:20-23 | removing twice is removing once |
| `ChatServer.BroadcastMessage` | media-stream/server.cpp:25-36 | a broadcast tries, in registry order, exactly the registered descriptors other than the sender, whichever sends fail; the failures are the unreachable ones among them, in order |
| `ChatServer.FailuresAreSentDescriptors` | media-stream/server.cpp:31-34 | a descriptor is reported as failed exactly when it was tried and its send failed |
| `ChatServer.Label` | media-stream/server.cpp:113 | a label is "Client" followed by the decimal digits of the counter, with no leading zero, which read back as the counter |
| `ChatServer.LabelInjective` | media-stream/server.cpp:113 | different counters give different labels |
| `ChatServer.LabelHasNoColon` | media-stream/server.cpp:113 | labels never contain a colon |
| `ChatServer.Listening` | media-stream/server.cpp:103 | the server starts with an empty registry and counter 1 |
| `ChatServer.Accept` | media-stream/server.cpp:107-117 | a failed accept registers nothing and keeps the counter; a success labels the connection with the counter, advances it, and appends the descriptor to the registry before the handler starts |
| `ChatServer.AcceptAll` | media-stream/server.cpp:103-121 | the sessions' descriptors are exactly the successful `accept()` results in order, the registry grows by exactly those, and the counter advances once per accepted connection |
| `ChatServer.AcceptAllLabels` | media-stream/server.cpp:103-113 | the k-th accepted connection is labelled with the starting counter + k |
| `ChatServer.AcceptedLabelsDistinct` | media-stream/server.cpp:103-113 | accepted connections have pairwise distinct labels, Client1, Client2, … from a fresh server |
| `ChatServer.JoinMessage` | media-stream/server.cpp:41 | the join announcement is the label followed by " joined the chat." and a newline |
| `ChatServer.RelayMessage` | media-stream/server.cpp:52 | a relayed line is the label, ": ", then the received bytes unchanged, with no newline added |
| `ChatServer.LeaveMessage` | media-stream/server.cpp:59 | the leave announcement is the label followed by " left the chat." and a newline |
| `ChatServer.SplitRelay` | media-stream/server.cpp:52 | splitting a line at its first colon gives a label and text whose relay message is the line |
| `ChatServer.RelayRoundTrip` | media-stream/server.cpp:52 | a relayed line `label + ": " + text` reads back as exactly that label and text |
| `ChatServer.AnnouncementsAreDistinctLines` | media-stream/server.cpp:41-60 | join and leave messages start with the label, end in a newline, differ from each other and never equal a relay message from the same client |
| `ChatServer.HandleClient` | media-stream/server.cpp:38-62 | a session broadcasts the join, one relay `label + ": " + chunk` per received chunk in order, then the leave, all with the client as sender; afterwards the registry is `remove_client`'s result, so it holds the other clients once each in registry order, and every one of these broadcasts, the leave included, goes to exactly that list |
| `Decimal.ToString` | media-stream/server.cpp:113 | the counter prints as a non-empty string of decimal digits with no leading zero; it starts with '0' only for 0 |
| `Decimal.ParseToString` | media-stream/server.cpp:113 | parsing the printed counter gives the counter back |
| `Decimal.ToStringInjective` | media-stream/server.cpp:113 | different counters print differently |

## Left out

- FFmpeg and SDL plumbing (`init_ffmpeg` beyond the duration it records, `free_ffmpeg`, packet/codec calls, `sws_scale`, texture updates, `draw_button` and the drawing in `render_ui`, window creation, `SDL_Delay`): foreign library I/O; only their outcomes enter the model as parameters.
- The timestamp arithmetic (`ts * av_q2d(tb)`, the seek timestamp `target / av_q2d(time_base)`), `fps` and `frame_delay_ms`: floating-point timebase conversion; the model takes the resulting seconds as a real input.
- IEEE doubles: seconds are mathematical reals, so rounding, NaN and infinities are not modelled.
- 32-bit `int` arithmetic: the label counter, descriptors and pixel coordinates are unbounded, so the overflow of `client_counter++` after 2^31 − 1 connections and of the layout sums for huge windows is not modelled.
- Threads, `std::mutex` and `std::atomic`: the server registry, the broadcast and the client's receiver are modelled sequentially. `ChatServer.HandleClient` assumes no other client joins or leaves during the session.
- `ChatClient.ReceiveLoop`: the callback versus standard-output choice for delivered messages is not modelled (the loop returns the delivered texts), nor the 1024-byte buffer that limits one `recv` to 1023 bytes (chunk boundaries are inputs).
- `ChatClient.Disconnect`: joins the receiver before shutting the socket down, so in the source it blocks until the server sends something or closes the connection; the model treats the join as immediate.
- `ChatClient.StopReceiver`: the same blocking join; a receiver waiting inside `recv` sees the cleared flag only after `recv` returns.
- The server's 1024-byte receive buffer and its default port 54000: buffer sizes and command-line parsing; chunk boundaries are inputs.
- `ChatClient.Connect`: models the error return of `socket()` as −1 (what POSIX returns), not as an arbitrary negative value.
- `ChatServer.HandleClient`: the source closes the descriptor before removing it from the registry; with threads, an `accept` in between could reuse the number and have the new client removed too. The sequential model cannot show this interleaving.
- Descriptor lifetimes: the model does not track which descriptors are open. In the source, `Connect` after a failed send (connected cleared, descriptor still open) overwrites the old descriptor without closing it; the model shows the overwrite only.
- `ChatClient.SendLine`: a partial `send` counts as success, as in the source; the bytes actually written are not modelled. A failed send is modelled as returning −1; the source neither ignores SIGPIPE nor passes `MSG_NOSIGNAL`, so a send to a reset peer raises SIGPIPE and its default action ends the process before connected is cleared.
- `ChatServer.BroadcastMessage`: only sends that return −1 are modelled as failures that are logged while the loop goes on; a send to a reset peer raises SIGPIPE, which ends the server process, since `send` is called with flags 0 and SIGPIPE is not ignored.
- `ChatServer.RelayMessage`: relayed text is not framed, so a chunk holding a newline followed by "ClientN: " reaches other clients as what looks like a second line from ClientN; only a single relay message string determines its sender.
- `media-stream/client.cpp` (argument defaults and the stdin loop) and `media-stream/chat_client.h` (declarations only): plumbing without behaviour of its own.
- `voice-changer/main.cpp`, `voice-changer/func.cpp`, `voice-changer/func.h` and the root `main.cpp`: SoundTouch/PortAudio/DSP wrappers with floating-point audio processing only.

=== FILE: chat_client.dfy ===
/** The chat client's connection state machine: the socket descriptor, the
    connected flag, the receiver flag and whether a receiver thread is still
    waiting to be joined, the guards of each operation, and the newline
    framing of outgoing lines.

    Socket calls are not modelled; their outcomes are inputs. The receiver
    thread is modelled as a sequential run over the results its `recv` calls
    return. */
module ChatClient {
  import opened Wrappers

  /** `threadJoinable` is whether the `std::thread` member still holds a
      thread nobody has joined; it stays set after the receive loop ends on
      its own, until `StopReceiver` joins it. */
  datatype Client = Client(sockFd: int, connected: bool, receiverRunning: bool, threadJoinable: bool)

  /** The descriptor field holds -1 or an open descriptor, a connected
      client holds an open one, and a running receiver has a thread. */
  predicate Valid(c: Client) {
    && c.sockFd >= -1
    && (c.connected ==> c.sockFd >= 0)
    && (c.receiverRunning ==> c.threadJoinable)
  }

  /** A freshly constructed client: no socket, not connected, no receiver. */
  function New(): (c: Client)
    ensures c.sockFd == -1 && !c.connected && !c.receiverRunning && !c.threadJoinable
    ensures Valid(c)
  {
    Client(-1, false, false, false)
  }

  /** `IsConnected`: the connected flag, which in a valid state implies an
      open descriptor. */
  function IsConnected(c: Client): (b: bool)
    ensures b <==> c.connected
    ensures Valid(c) && b ==> c.sockFd >= 0
  {
    c.connected
  }

  /** A client state together with the boolean an operation returns. */
  datatype Step = Step(client: Client, ok: bool)

  /** `Connect`. `socket` is the descriptor `socket()` returned, `None` for
      its error return -1; `addressValid` is whether `inet_pton` accepted the
      address and `connectOk` whether `connect()` succeeded. An already
      connected client is left alone and reports success. */
  function Connect(c: Client, socket: Option<nat>, addressValid: bool, connectOk: bool): (r: Step)
    ensures c.connected ==> r == Step(c, true)
    ensures !c.connected ==> (r.ok <==> socket.Some? && addressValid && connectOk)
    ensures !c.connected && r.ok ==> r.client.connected && r.client.sockFd == socket.value
    ensures !c.connected && !r.ok ==> !r.client.connected && r.client.sockFd == -1
    ensures r.client.receiverRunning == c.receiverRunning && r.client.threadJoinable == c.threadJoinable
    ensures Valid(c) ==> Valid(r.client)
  {
    if c.connected then Step(c, true)
    else if socket.None? then Step(c.(sockFd := -1), false)
    else if !addressValid then Step(c.(sockFd := -1), false)
    else if !connectOk then Step(c.(sockFd := -1), false)
    else Step(c.(sockFd := socket.value, connected := true), true)
  }

  /** The bytes `SendLine` hands to `send`: the text, with one newline added
      unless it already ends in one. */
  function Frame(text: string): (line: string)
    ensures |line| > 0 && line[|line| - 1] == '\n'
    ensures |text| <= |line| && line[..|text|] == text
    ensures |line| == |text| + 1 <==> |text| == 0 || text[|text| - 1] != '\n'
    ensures |line| == |text| <==> |text| > 0 && text[|text| - 1] == '\n'
  {
    if |text| == 0 || text[|text| - 1] != '\n' then text + "\n" else text
  }

  /** Framing a framed line changes nothing. */
  lemma FrameIdempotent(text: string)
    ensures Frame(Frame(text)) == Frame(text)
  {
  }

  /** The framed line is the shortest newline-terminated extension of the
      text. */
  lemma FrameIsShortest(text: string, other: string)
    requires |other| > 0 && other[|other| - 1] == '\n'
    requires |text| <= |other| && other[..|text|] == text
    ensures |Frame(text)| <= |other|
  {
    if |other| == |text| {
      assert text[|text| - 1] == other[|other| - 1];
    }
  }

  /** The outcome of `SendLine`: the new state, the returned flag, and the
      line passed to `send`, if any. */
  datatype Sent = Sent(client: Client, ok: bool, transmitted: Option<string>)

  /** `SendLine`. `sendOk` is whether `send` reported success. */
  function SendLine(c: Client, text: string, sendOk: bool): (r: Sent)
    ensures !c.connected || c.sockFd < 0 ==> r == Sent(c, false, None)
    ensures c.connected && c.sockFd >= 0 ==> r.transmitted == Some(Frame(text))
    ensures r.ok <==> c.connected && c.sockFd >= 0 && sendOk
    ensures r.client.connected <==> c.connected && (c.sockFd < 0 || sendOk)
    ensures r.client.sockFd == c.sockFd && r.client.receiverRunning == c.receiverRunning
    ensures r.client.threadJoinable == c.threadJoinable
    ensures Valid(c) ==> Valid(r.client)
  {
    if !c.connected || c.sockFd < 0 then Sent(c, false, None)
    else if !sendOk then Sent(c.(connected := false), false, Some(Frame(text)))
    else Sent(c, true, Some(Frame(text)))
  }

  /** After a failed send, every later send is refused without touching the
      socket until the client connects again. */
  lemma SendFailureIsFinal(c: Client, text: string, next: string, ok: bool)
    requires c.connected && c.sockFd >= 0
    ensures var after := SendLine(c, text, false).client;
            SendLine(after, next, ok) == Sent(after, false, None)
  {
  }

  /** What `StartReceiver` does: nothing (the client is unchanged), start a
      thread, or move-assign a new thread onto one that is still joinable,
      which makes `std::thread` call `std::terminate`. */
  datatype Start = NotStarted | Started(client: Client) | Terminated

  /** `StartReceiver`: does nothing unless connected and not yet receiving.
      It does not check whether an earlier receiver thread, which may have
      ended on its own, was joined. */
  function StartReceiver(c: Client): (r: Start)
    ensures r.NotStarted? <==> !c.connected || c.receiverRunning
    ensures r.Terminated? <==> c.connected && !c.receiverRunning && c.threadJoinable
    ensures r.Started? ==> r.client == c.(receiverRunning := true, threadJoinable := true)
    ensures Valid(c) && r.Started? ==> Valid(r.client)
  {
    if !c.connected || c.receiverRunning then NotStarted
    else if c.threadJoinable then Terminated
    else Started(c.(receiverRunning := true, threadJoinable := true))
  }

  /** `StopReceiver`: clears the flag and joins the thread if there is one;
      the join completing is the end of the receive loop in this sequential
      model. */
  function StopReceiver(c: Client): (r: Client)
    ensures !r.receiverRunning && !r.threadJoinable
    ensures r.sockFd == c.sockFd && r.connected == c.connected
    ensures Valid(c) ==> Valid(r)
  {
    c.(receiverRunning := false, threadJoinable := false)
  }

  /** The state after `Disconnect` and the descriptor it shut down and
      closed, if there was one. */
  datatype Closed = Closed(client: Client, closedFd: Option<int>)

  /** `Disconnect` (also what the destructor does). */
  function Disconnect(c: Client): (r: Closed)
    ensures !r.client.receiverRunning && !r.client.threadJoinable
    ensures !r.client.connected && r.client.sockFd < 0
    ensures Valid(c) ==> r.client.sockFd == -1 && Valid(r.client)
    ensures r.closedFd.Some? <==> c.sockFd >= 0
    ensures r.closedFd.Some? ==> r.closedFd.value == c.sockFd
  {
    var stopped := StopReceiver(c);
    if stopped.sockFd >= 0 then Closed(stopped.(sockFd := -1, connected := false), Some(c.sockFd))
    else Closed(stopped.(connected := false), None)
  }

  /** A second `Disconnect` closes nothing and changes nothing. */
  lemma DisconnectIdempotent(c: Client)
    ensures Disconnect(Disconnect(c).client) == Closed(Disconnect(c).client, None)
  {
  }

  /** A disconnected client refuses to send and to start a receiver. */
  lemma DisconnectedIsInert(c: Client, text: string, ok: bool)
    ensures var d := Disconnect(c).client;
            !IsConnected(d) && SendLine(d, text, ok) == Sent(d, false, None) && StartReceiver(d) == NotStarted
  {
  }

  /** Once connected, further `Connect` calls succeed without touching the
      socket whatever the socket calls would do, and once the receiver runs a
      second `StartReceiver` starts nothing. */
  lemma ConnectAndStartAreOnce(c: Client, socket: Option<nat>, addressValid: bool, connectOk: bool,
                               socket2: Option<nat>, addressValid2: bool, connectOk2: bool)
    requires !c.connected && !c.receiverRunning && !c.threadJoinable
    requires socket.Some? && addressValid && connectOk
    ensures var up := Connect(c, socket, addressValid, connectOk).client;
            && Connect(up, socket2, addressValid2, connectOk2) == Step(up, true)
            && StartReceiver(up).Started?
            && StartReceiver(StartReceiver(up).client) == NotStarted
  {
  }

  /** When the receiver ends on its own (the server hung up) and the client
      connects again, `StartReceiver` assigns a new thread over the finished
      but unjoined one and the process terminates. */
  lemma RestartAfterHangupAborts(c: Client, socket: nat)
    requires Valid(c) && c.receiverRunning
    ensures var ended := c.(connected := false, receiverRunning := false);
            var up := Connect(ended, Some(socket), true, true).client;
            up.connected && StartReceiver(up) == Terminated
  {
  }

  /** After `StopReceiver` has joined the old thread, a connected client can
      start a receiver again. */
  lemma RestartAfterStopStarts(c: Client)
    requires c.connected
    ensures StartReceiver(StopReceiver(c)).Started?
  {
  }

  /** One `recv` result: some bytes (a positive count) or the end of the
      connection or an error (a count of zero or less). */
  datatype Recv = Data(text: string) | Hangup

  /** The texts delivered before the first hangup. */
  function TextsBeforeHangup(incoming: seq<Recv>): seq<string>
  {
    if |incoming| == 0 || incoming[0].Hangup? then []
    else [incoming[0].text] + TextsBeforeHangup(incoming[1..])
  }

  predicate HasHangup(incoming: seq<Recv>) {
    exists i :: 0 <= i < |incoming| && incoming[i].Hangup?
  }

  /** `ReceiveLoop`. `incoming` are the results of the receiver's `recv`
      calls. Running out of them stands for the loop test finding the
      receiver flag cleared after the last text was delivered; a receiver
      blocked inside `recv` does not see the flag until `recv` returns. The
      loop delivers every text it receives, stops at the first hangup and
      marks the client disconnected, and always clears the receiver flag on
      its way out, leaving the thread itself unjoined. */
  method ReceiveLoop(c: Client, incoming: seq<Recv>) returns (r: Client, delivered: seq<string>)
    ensures !r.receiverRunning
    ensures r.sockFd == c.sockFd && r.threadJoinable == c.threadJoinable
    ensures Valid(c) ==> Valid(r)
    ensures !(c.receiverRunning && c.connected) ==> delivered == [] && r.connected == c.connected
    ensures c.receiverRunning && c.connected ==>
      delivered == TextsBeforeHangup(incoming) && (r.connected <==> !HasHangup(incoming))
  {
    r := c;
    delivered := [];
    var i := 0;
    while r.receiverRunning && r.connected && i < |incoming|
      invariant 0 <= i <= |incoming|
      invariant r.sockFd == c.sockFd && r.threadJoinable == c.threadJoinable
      invariant r.connected ==> c.connected
      invariant !(c.receiverRunning && c.connected) ==> i == 0 && r == c && delivered == []
      invariant c.receiverRunning && c.connected ==> r.receiverRunning
      invariant c.receiverRunning && r.connected ==> forall j :: 0 <= j < i ==> incoming[j].Data?
      invariant c.receiverRunning && c.connected && r.connected ==>
        delivered + TextsBeforeHangup(incoming[i..]) == TextsBeforeHangup(incoming)
      invariant c.receiverRunning && c.connected && !r.connected ==>
        i > 0 && incoming[i - 1].Hangup? && delivered == TextsBeforeHangup(incoming)
      decreases |incoming| - i
    {
      if incoming[i].Hangup? {
        r := r.(connected := false);
      } else {
        delivered := delivered + [incoming[i].text];
      }
      i := i + 1;
    }
    r := r.(receiverRunning := false);
  }
}

=== FILE: chat_server.dfy ===
/** The chat server's client registry and message relay: the list of
    connected descriptors, removal of a client, the recipients of a
    broadcast, the labels handed to accepted connections, the join, relay and
    leave messages, and what one client's handler broadcasts over its life.

    The registry is modelled sequentially (the mutex only serialises these
    operations); socket calls are inputs. */
module ChatServer {
  import opened Wrappers
  import Decimal

  // -------------------------------------------------------------- registry

  /** `remove_client`: the erase-remove idiom over the registry. */
  function RemoveClient(clients: seq<int>, fd: int): (r: seq<int>)
    ensures |r| <= |clients|
    ensures fd !in r
    decreases |clients|
  {
    if |clients| == 0 then []
    else if clients[0] == fd then RemoveClient(clients[1..], fd)
    else [clients[0]] + RemoveClient(clients[1..], fd)
  }

  /** Removal drops every occurrence of `fd` and nothing else. */
  lemma {:induction false} RemoveClientContents(clients: seq<int>, fd: int)
    ensures multiset(RemoveClient(clients, fd)) == multiset(clients)[fd := 0]
    ensures fd !in RemoveClient(clients, fd)
    decreases |clients|
  {
    if |clients| > 0 {
      RemoveClientContents(clients[1..], fd);
      assert clients == [clients[0]] + clients[1..];
    }
  }

  /** The survivors are exactly the registered descriptors other than `fd`. */
  lemma RemoveClientMembers(clients: seq<int>, fd: int)
    ensures forall x :: x in RemoveClient(clients, fd) <==> x in clients && x != fd
  {
    RemoveClientContents(clients, fd);
    forall x
      ensures x in RemoveClient(clients, fd) <==> x in clients && x != fd
    {
      assert x in RemoveClient(clients, fd) <==> x in multiset(RemoveClient(clients, fd));
      assert x in clients <==> x in multiset(clients);
    }
  }

  /** Removal works piecewise: removing from a concatenation is removing from
      each part, so the survivors keep their relative order. */
  lemma {:induction false} RemoveClientAppend(a: seq<int>, b: seq<int>, fd: int)
    ensures RemoveClient(a + b, fd) == RemoveClient(a, fd) + RemoveClient(b, fd)
    decreases |a|
  {
    if |a| == 0 {
      assert a + b == b;
    } else {
      assert (a + b)[1..] == a[1..] + b;
      RemoveClientAppend(a[1..], b, fd);
    }
  }

  /** Removing an absent descriptor leaves the registry as it was. */
  lemma {:induction false} RemoveAbsentClient(clients: seq<int>, fd: int)
    requires fd !in clients
    ensures RemoveClient(clients, fd) == clients
    decreases |clients|
  {
    if |clients| > 0 {
      assert clients[0] != fd;
      RemoveAbsentClient(clients[1..], fd);
      assert clients == [clients[0]] + clients[1..];
    }
  }

  /** Removing twice is removing once. */
  lemma RemoveClientIdempotent(clients: seq<int>, fd: int)
    ensures RemoveClient(RemoveClient(clients, fd), fd) == RemoveClient(clients, fd)
  {
    RemoveClientContents(clients, fd);
    RemoveAbsentClient(RemoveClient(clients, fd), fd);
  }

  // ------------------------------------------------------------- broadcast

  /** The descriptors among `fds`, in order, whose send fails. */
  function Failures(fds: seq<int>, unreachable: set<int>): (failed: seq<int>)
    decreases |fds|
  {
    if |fds| == 0 then []
    else Failures(fds[..|fds| - 1], unreachable) + (if fds[|fds| - 1] in unreachable then [fds[|fds| - 1]] else [])
  }

  /** `broadcast_message`. `unreachable` holds the descriptors whose send
      returns -1. The message goes, in registry order, to exactly the
      registered descriptors other than the sender (`sent`); a send that
      returns -1 is only logged (`failed`), so the descriptors tried never
      depend on which of those sends fail. */
  method BroadcastMessage(clients: seq<int>, sender: int, unreachable: set<int>)
    returns (sent: seq<int>, failed: seq<int>)
    ensures sent == RemoveClient(clients, sender)
    ensures forall x :: x in sent <==> x in clients && x != sender
    ensures failed == Failures(sent, unreachable)
  {
    sent, failed := [], [];
    var i := 0;
    while i < |clients|
      invariant 0 <= i <= |clients|
      invariant sent + RemoveClient(clients[i..], sender) == RemoveClient(clients, sender)
      invariant failed == Failures(sent, unreachable)
    {
      var fd := clients[i];
      assert clients[i..][1..] == clients[i + 1..];
      if fd != sender {
        var ok := fd !in unreachable;
        var before := sent;
        sent := sent + [fd];
        assert sent[..|sent| - 1] == before;
        if !ok {
          failed := failed + [fd];
        }
      }
      i := i + 1;
    }
    RemoveClientMembers(clients, sender);
  }

  /** The failures are exactly the unreachable descriptors among those tried. */
  lemma {:induction false} FailuresAreSentDescriptors(fds: seq<int>, unreachable: set<int>)
    ensures forall x :: x in Failures(fds, unreachable) <==> x in fds && x in unreachable
    decreases |fds|
  {
    if |fds| > 0 {
      FailuresAreSentDescriptors(fds[..|fds| - 1], unreachable);
      assert fds == fds[..|fds| - 1] + [fds[|fds| - 1]];
    }
  }

  // ---------------------------------------------------------------- labels

  const LabelPrefix: string := "Client"

  /** The label of the `n`-th accepted connection. */
  function Label(n: nat): (l: string)
    ensures |l| > |LabelPrefix| && l[..|LabelPrefix|] == LabelPrefix
    ensures forall i :: |LabelPrefix| <= i < |l| ==> Decimal.IsDigit(l[i])
    ensures Decimal.Parse(l[|LabelPrefix|..]) == n
    ensures |l| > |LabelPrefix| + 1 ==> l[|LabelPrefix|] != '0'
  {
    var digits := Decimal.ToString(n);
    Decimal.ParseToString(n);
    var l := LabelPrefix + digits;
    assert l[|LabelPrefix|..] == digits;
    assert forall i :: |LabelPrefix| <= i < |l| ==> l[i] == digits[i - |LabelPrefix|];
    l
  }

  /** Different counters give different labels. */
  lemma LabelInjective(a: nat, b: nat)
    requires a != b
    ensures Label(a) != Label(b)
  {
  }

  /** Labels contain no colon, so a single relay message determines its
      sender's label and text. */
  lemma LabelHasNoColon(n: nat)
    ensures ':' !in Label(n)
  {
    var l := Label(n);
    var digits := Decimal.ToString(n);
    assert l == LabelPrefix + digits;
    forall i | 0 <= i < |l|
      ensures l[i] != ':'
    {
      if i >= |LabelPrefix| {
        assert l[i] == digits[i - |LabelPrefix|];
      }
    }
  }

  // ---------------------------------------------------------------- accept

  /** The registry and the label counter of the accept loop. */
  datatype Server = Server(clients: seq<int>, counter: nat)

  /** The state when the server starts listening: no clients, counter 1. */
  function Listening(): (s: Server)
    ensures s.clients == [] && s.counter == 1
  {
    Server([], 1)
  }

  /** A connection handed to its handler thread. */
  datatype Session = Session(fd: nat, clientLabel: string)

  datatype AcceptStep = AcceptStep(server: Server, session: Option<Session>)

  /** One round of the accept loop. `accepted` is the descriptor `accept()`
      returned, `None` for its error return. A failure registers nothing and
      does not advance the counter; a success labels the connection with the
      counter, advances it, and appends the descriptor to the registry before
      its handler is started. */
  function Accept(s: Server, accepted: Option<nat>): (r: AcceptStep)
    ensures accepted.None? ==> r == AcceptStep(s, None)
    ensures accepted.Some? ==> r.session == Some(Session(accepted.value, Label(s.counter)))
    ensures accepted.Some? ==> r.server == Server(s.clients + [accepted.value], s.counter + 1)
    ensures r.session.Some? ==> r.session.value.fd in r.server.clients
  {
    if accepted.None? then AcceptStep(s, None)
    else
      var fd := accepted.value;
      AcceptStep(Server(s.clients + [fd], s.counter + 1), Some(Session(fd, Label(s.counter))))
  }

  datatype AcceptRun = AcceptRun(server: Server, sessions: seq<Session>)

  function Fds(sessions: seq<Session>): (fds: seq<int>)
    ensures |fds| == |sessions|
    ensures forall i :: 0 <= i < |sessions| ==> fds[i] == sessions[i].fd
  {
    seq(|sessions|, i requires 0 <= i < |sessions| => sessions[i].fd as int)
  }

  lemma FdsCons(session: Session, sessions: seq<Session>)
    ensures Fds([session] + sessions) == [session.fd as int] + Fds(sessions)
  {
  }

  /** The descriptors among a series of `accept()` results, in order, with
      the error returns left out. */
  function Accepted(results: seq<Option<nat>>): (fds: seq<int>)
    ensures |fds| <= |results|
    ensures forall i :: 0 <= i < |fds| ==> fds[i] >= 0
    decreases |results|
  {
    if |results| == 0 then []
    else (if results[0].Some? then [results[0].value as int] else []) + Accepted(results[1..])
  }

  /** Stated as a lemma so that the accept loop's proof gets this one step
      without a wider search. */
  lemma AppendAssoc(a: seq<int>, b: seq<int>, c: seq<int>)
    ensures (a + b) + c == a + (b + c)
  {
  }

  /** The accept loop over a series of `accept()` results: one session per
      successful accept, in order, the registry extended by exactly those
      descriptors and the counter advanced once for each. */
  function AcceptAll(s: Server, results: seq<Option<nat>>): (r: AcceptRun)
    ensures Fds(r.sessions) == Accepted(results)
    ensures r.server.clients == s.clients + Accepted(results)
    ensures r.server.counter == s.counter + |r.sessions|
    decreases |results|
  {
    if |results| == 0 then AcceptRun(s, [])
    else
      var step := Accept(s, results[0]);
      var rest := AcceptAll(step.server, results[1..]);
      if step.session.Some? then
        var fd := results[0].value as int;
        assert Accepted(results) == [fd] + Accepted(results[1..]);
        assert rest.server.clients == s.clients + ([fd] + Accepted(results[1..])) by {
          assert step.server.clients == s.clients + [fd];
          AppendAssoc(s.clients, [fd], Accepted(results[1..]));
        }
        FdsCons(step.session.value, rest.sessions);
        AcceptRun(rest.server, [step.session.value] + rest.sessions)
      else
        assert Accepted(results) == Accepted(results[1..]);
        rest
  }

  /** The sessions carry the labels of consecutive counter values from `c`. */
  predicate LabelledFrom(sessions: seq<Session>, c: nat) {
    forall i :: 0 <= i < |sessions| ==> sessions[i].clientLabel == Label(c + i)
  }

  lemma LabelledCons(session: Session, sessions: seq<Session>, c: nat)
    requires session.clientLabel == Label(c) && LabelledFrom(sessions, c + 1)
    ensures LabelledFrom([session] + sessions, c)
  {
    var all := [session] + sessions;
    forall i | 0 <= i < |all|
      ensures all[i].clientLabel == Label(c + i)
    {
      if i > 0 {
        assert all[i] == sessions[i - 1];
      }
    }
  }

  /** Every successful accept gets the next counter value as its label. */
  lemma {:induction false} AcceptAllLabels(s: Server, results: seq<Option<nat>>)
    ensures LabelledFrom(AcceptAll(s, results).sessions, s.counter)
    decreases |results|
  {
    if |results| > 0 {
      var step := Accept(s, results[0]);
      AcceptAllLabels(step.server, results[1..]);
      if results[0].Some? {
        LabelledCons(step.session.value, AcceptAll(step.server, results[1..]).sessions, s.counter);
      }
    }
  }

  /** No two accepted connections share a label, and from a fresh server the
      labels are Client1, Client2, ... in order. */
  lemma AcceptedLabelsDistinct(s: Server, results: seq<Option<nat>>)
    ensures var sessions := AcceptAll(s, results).sessions;
            forall i, j :: 0 <= i < j < |sessions| ==> sessions[i].clientLabel != sessions[j].clientLabel
    ensures s == Listening() ==>
            var sessions := AcceptAll(s, results).sessions;
            forall i :: 0 <= i < |sessions| ==> sessions[i].clientLabel == Label(i + 1)
  {
    AcceptAllLabels(s, results);
    var sessions := AcceptAll(s, results).sessions;
    forall i, j | 0 <= i < j < |sessions|
      ensures sessions[i].clientLabel != sessions[j].clientLabel
    {
      LabelInjective(s.counter + i, s.counter + j);
    }
  }

  // -------------------------------------------------------------- messages

  const JoinSuffix: string := " joined the chat.\n"
  const LeaveSuffix: string := " left the chat.\n"
  const RelaySeparator: string := ": "

  /** The announcement of a new client: its label, then the join text, as one
      newline-terminated line. */
  function JoinMessage(clientLabel: string): (m: string)
    ensures |m| == |clientLabel| + |JoinSuffix| && m[|m| - 1] == '\n'
    ensures m[..|clientLabel|] == clientLabel && m[|clientLabel|..] == JoinSuffix
  {
    clientLabel + JoinSuffix
  }

  /** A relayed chunk: the sender's label, the separator, then the received
      bytes unchanged (no newline is added). */
  function RelayMessage(clientLabel: string, text: string): (m: string)
    ensures |m| == |clientLabel| + |RelaySeparator| + |text|
    ensures m[..|clientLabel|] == clientLabel
    ensures m[|clientLabel|..|clientLabel| + |RelaySeparator|] == RelaySeparator
    ensures m[|clientLabel| + |RelaySeparator|..] == text
  {
    clientLabel + RelaySeparator + text
  }

  /** The announcement of a departed client, as one newline-terminated line. */
  function LeaveMessage(clientLabel: string): (m: string)
    ensures |m| == |clientLabel| + |LeaveSuffix| && m[|m| - 1] == '\n'
    ensures m[..|clientLabel|] == clientLabel && m[|clientLabel|..] == LeaveSuffix
  {
    clientLabel + LeaveSuffix
  }

  /** Index of the first colon, or the length when there is none. */
  function FirstColon(line: string): (k: nat)
    ensures k <= |line|
    ensures forall i :: 0 <= i < k ==> line[i] != ':'
    ensures k < |line| ==> line[k] == ':'
    decreases |line|
  {
    if |line| == 0 || line[0] == ':' then 0 else 1 + FirstColon(line[1..])
  }

  /** Reads a relayed line back into sender label and text. */
  function SplitRelay(line: string): (r: Option<(string, string)>)
    ensures r.Some? ==> RelayMessage(r.value.0, r.value.1) == line && ':' !in r.value.0
  {
    var k := FirstColon(line);
    if k + 1 < |line| && line[k + 1] == ' ' then
      assert line == line[..k] + ": " + line[k + 2..];
      Some((line[..k], line[k + 2..]))
    else None
  }

  /** A relayed line names its sender and carries the text unchanged. */
  lemma RelayRoundTrip(n: nat, text: string)
    ensures SplitRelay(RelayMessage(Label(n), text)) == Some((Label(n), text))
  {
    var clientLabel := Label(n);
    var line := RelayMessage(clientLabel, text);
    LabelHasNoColon(n);
    assert line[|clientLabel|] == ':';
    var k := FirstColon(line);
    assert k == |clientLabel|;
    assert line[..k] == clientLabel;
    assert line[k + 2..] == text;
  }

  /** Join and leave announcements are whole lines that start with the label
      and never equal a relay message from that client. */
  lemma AnnouncementsAreDistinctLines(clientLabel: string)
    ensures JoinMessage(clientLabel) != LeaveMessage(clientLabel)
    ensures var j := JoinMessage(clientLabel); j[|j| - 1] == '\n' && j[..|clientLabel|] == clientLabel
    ensures var l := LeaveMessage(clientLabel); l[|l| - 1] == '\n' && l[..|clientLabel|] == clientLabel
    ensures forall text :: JoinMessage(clientLabel) != RelayMessage(clientLabel, text)
    ensures forall text :: LeaveMessage(clientLabel) != RelayMessage(clientLabel, text)
  {
    assert JoinMessage(clientLabel)[|clientLabel| + 1] == 'j';
    assert LeaveMessage(clientLabel)[|clientLabel| + 1] == 'l';
    forall text
      ensures JoinMessage(clientLabel) != RelayMessage(clientLabel, text)
      ensures LeaveMessage(clientLabel) != RelayMessage(clientLabel, text)
    {
      assert RelayMessage(clientLabel, text)[|clientLabel|] == ':';
      assert JoinMessage(clientLabel)[|clientLabel|] == ' ';
      assert LeaveMessage(clientLabel)[|clientLabel|] == ' ';
    }
  }

  // --------------------------------------------------------------- session

  /** One message the handler broadcasts: its text, the sender excluded, and
      the descriptors it is sent to. */
  datatype Broadcast = Broadcast(message: string, sender: int, recipients: seq<int>)

  datatype SessionLog = SessionLog(clients: seq<int>, broadcasts: seq<Broadcast>)

  /** `handle_client` for a connection `fd` labelled `clientLabel`, with no other
      connection arriving or leaving meanwhile. `chunks` are the texts its
      `recv` calls return before the one that returns zero or less. It
      announces the join, relays every chunk with the label in front, removes
      the client and announces the leave to those who remain. Every message
      reaches exactly the other registered clients. */
  function HandleClient(clients: seq<int>, fd: int, clientLabel: string, chunks: seq<string>): (r: SessionLog)
    ensures |r.broadcasts| == |chunks| + 2
    ensures r.broadcasts[0].message == JoinMessage(clientLabel)
    ensures forall i :: 0 <= i < |chunks| ==> r.broadcasts[i + 1].message == RelayMessage(clientLabel, chunks[i])
    ensures r.broadcasts[|chunks| + 1].message == LeaveMessage(clientLabel)
    ensures forall i :: 0 <= i < |r.broadcasts| ==>
      r.broadcasts[i].sender == fd && fd !in r.broadcasts[i].recipients
    ensures r.clients == RemoveClient(clients, fd)
    ensures forall x :: x in r.clients <==> x in clients && x != fd
    ensures forall i :: 0 <= i < |r.broadcasts| ==> r.broadcasts[i].recipients == r.clients
  {
    var others := RemoveClient(clients, fd);
    var join := Broadcast(JoinMessage(clientLabel), fd, others);
    var relays := Relays(clientLabel, fd, others, chunks);
    var remaining := RemoveClient(clients, fd);
    RemoveClientIdempotent(clients, fd);
    RemoveClientMembers(clients, fd);
    var leave := Broadcast(LeaveMessage(clientLabel), fd, RemoveClient(remaining, fd));
    var broadcasts := [join] + relays + [leave];
    assert forall i :: 1 <= i <= |chunks| ==> broadcasts[i] == relays[i - 1];
    SessionLog(remaining, broadcasts)
  }

  /** The relay broadcasts of a session, one per received chunk, in order. */
  function Relays(clientLabel: string, fd: int, recipients: seq<int>, chunks: seq<string>): (bs: seq<Broadcast>)
    ensures |bs| == |chunks|
    ensures forall i :: 0 <= i < |chunks| ==> bs[i] == Broadcast(RelayMessage(clientLabel, chunks[i]), fd, recipients)
  {
    seq(|chunks|, i requires 0 <= i < |chunks| => Broadcast(RelayMessage(clientLabel, chunks[i]), fd, recipients))
  }
}

=== FILE: controls.dfy ===
/** The control strip drawn under the video: two seek buttons and a seek bar,
    laid out in integer window pixels, plus the hit-testing the player's event
    loop performs on a left click and the width of the bar's filled part. */
module Controls {
  import opened Numeric

  /** Height of the control strip drawn below the video. */
  const ControlHeight: int := 90
  const ButtonWidth: int := 80
  const ButtonHeight: int := 42
  const BackButtonX: int := 20
  const ForwardButtonX: int := 120
  const ButtonTopOffset: int := 20
  const BarX: int := 230
  const BarTopOffset: int := 35
  const BarRightMargin: int := 30
  const MinBarWidth: int := 60
  const BarHeight: int := 12

  /** An SDL rectangle: top-left corner and size. */
  datatype Rect = Rect(x: int, y: int, w: int, h: int)

  /** Half-open containment: the left and top edges belong to the rectangle,
      the right and bottom edges do not. */
  function PointInRect(px: int, py: int, r: Rect): (inside: bool)
    ensures inside ==> r.w > 0 && r.h > 0
    ensures inside ==> r.x <= px < r.x + r.w && r.y <= py < r.y + r.h
    ensures r.x <= px < r.x + r.w && r.y <= py < r.y + r.h ==> inside
  {
    px >= r.x && px < r.x + r.w && py >= r.y && py < r.y + r.h
  }

  /** The rectangle lies within the control strip below a video `videoH`
      pixels high. */
  predicate InStrip(r: Rect, videoH: int) {
    videoH <= r.y && r.y + r.h <= videoH + ControlHeight
  }

  lemma PointInRectHalfOpen(r: Rect)
    requires r.w > 0 && r.h > 0
    ensures PointInRect(r.x, r.y, r)
    ensures PointInRect(r.x + r.w - 1, r.y + r.h - 1, r)
    ensures !PointInRect(r.x + r.w, r.y, r)
    ensures !PointInRect(r.x, r.y + r.h, r)
    ensures !PointInRect(r.x - 1, r.y, r) && !PointInRect(r.x, r.y - 1, r)
  {
  }

  /** A rectangle with no width or no height contains no point. */
  lemma EmptyRectContainsNothing(r: Rect, px: int, py: int)
    requires r.w <= 0 || r.h <= 0
    ensures !PointInRect(px, py, r)
  {
  }

  /** The back button: 80 by 42 pixels at x = 20, 20 pixels into the strip,
      ending left of the forward button. */
  function BackButtonRect(videoH: int): (r: Rect)
    ensures r.x == 20 && r.y == videoH + 20 && r.w == 80 && r.h == 42
    ensures InStrip(r, videoH) && r.x + r.w < ForwardButtonX
  {
    Rect(BackButtonX, videoH + ButtonTopOffset, ButtonWidth, ButtonHeight)
  }

  /** The forward button: the same size at x = 120, ending left of the bar. */
  function ForwardButtonRect(videoH: int): (r: Rect)
    ensures r.x == 120 && r.y == videoH + 20 && r.w == 80 && r.h == 42
    ensures InStrip(r, videoH) && r.x + r.w < BarX
  {
    Rect(ForwardButtonX, videoH + ButtonTopOffset, ButtonWidth, ButtonHeight)
  }

  /** The bar spans from x = 230 to 30 pixels short of the right edge, but is
      never narrower than 60 pixels. The same width is used for drawing and
      for hit-testing. */
  function SeekBarWidth(videoW: int): (w: int)
    ensures w >= MinBarWidth
    ensures w >= videoW - BarX - BarRightMargin
    ensures w == MinBarWidth || w == videoW - BarX - BarRightMargin
  {
    MaxInt(MinBarWidth, videoW - BarX - BarRightMargin)
  }

  /** The bar: 12 pixels high at x = 230, 35 pixels into the strip. */
  function SeekBarRect(videoW: int, videoH: int): (r: Rect)
    ensures r.x == 230 && r.y == videoH + 35 && r.w == SeekBarWidth(videoW) && r.h == 12
    ensures InStrip(r, videoH) && r.w >= 60
  {
    Rect(BarX, videoH + BarTopOffset, SeekBarWidth(videoW), BarHeight)
  }

  /** Which control a left click lands on. */
  datatype Control = BackButton | ForwardButton | SeekBar | NoControl

  /** The click handler tries the back button, then the forward button, then
      the bar. The three controls occupy disjoint column ranges, so the
      priority never decides anything: each answer holds exactly when the
      point lies inside that control. */
  function HitTest(mx: int, my: int, videoW: int, videoH: int): (c: Control)
    ensures c == BackButton <==> PointInRect(mx, my, BackButtonRect(videoH))
    ensures c == ForwardButton <==> PointInRect(mx, my, ForwardButtonRect(videoH))
    ensures c == SeekBar <==> PointInRect(mx, my, SeekBarRect(videoW, videoH))
  {
    if PointInRect(mx, my, BackButtonRect(videoH)) then BackButton
    else if PointInRect(mx, my, ForwardButtonRect(videoH)) then ForwardButton
    else if PointInRect(mx, my, SeekBarRect(videoW, videoH)) then SeekBar
    else NoControl
  }

  /** No point lies in two controls at once. */
  lemma ControlsDisjoint(mx: int, my: int, videoW: int, videoH: int)
    ensures !(PointInRect(mx, my, BackButtonRect(videoH)) && PointInRect(mx, my, ForwardButtonRect(videoH)))
    ensures !(PointInRect(mx, my, BackButtonRect(videoH)) && PointInRect(mx, my, SeekBarRect(videoW, videoH)))
    ensures !(PointInRect(mx, my, ForwardButtonRect(videoH)) && PointInRect(mx, my, SeekBarRect(videoW, videoH)))
  {
  }

  /** Where on the bar a click lies, as a fraction of the bar's width; the
      divisor is guarded against zero with `max(1, w)`. A click inside the bar
      gives a fraction in [0, 1). */
  function SeekBarRatio(mx: int, my: int, videoW: int, videoH: int): (ratio: real)
    requires PointInRect(mx, my, SeekBarRect(videoW, videoH))
    ensures ratio * SeekBarWidth(videoW) as real == (mx - BarX) as real
    ensures 0.0 <= ratio < 1.0
    ensures mx == BarX ==> ratio == 0.0
  {
    var bar := SeekBarRect(videoW, videoH);
    var num := (mx - bar.x) as real;
    var den := MaxInt(1, bar.w) as real;
    assert 0.0 <= num < den;
    num / den
  }

  /** Clicking further right on the bar never asks for an earlier position. */
  lemma SeekBarRatioMonotonic(mx1: int, mx2: int, my: int, videoW: int, videoH: int)
    requires PointInRect(mx1, my, SeekBarRect(videoW, videoH))
    requires PointInRect(mx2, my, SeekBarRect(videoW, videoH))
    requires mx1 <= mx2
    ensures SeekBarRatio(mx1, my, videoW, videoH) <= SeekBarRatio(mx2, my, videoW, videoH)
  {
    var den := SeekBarWidth(videoW) as real;
    DivMonotonic((mx1 - BarX) as real, (mx2 - BarX) as real, den);
  }

  lemma DivMonotonic(a: real, b: real, d: real)
    requires a <= b && d > 0.0
    ensures a / d <= b / d
  {
    assert b / d - a / d == (b - a) / d;
  }

  /** Width in pixels of the bar's filled part: the progress is clamped to
      [0, 1] and the product truncated to an integer, so the fill never leaves
      the bar, is empty at progress 0 or less and full at progress 1 or more. */
  function FillWidth(barW: int, progress: real): (fill: int)
    requires barW >= 0
    ensures 0 <= fill <= barW
    ensures progress <= 0.0 ==> fill == 0
    ensures progress >= 1.0 ==> fill == barW
    ensures fill as real <= barW as real * Clamp(progress, 0.0, 1.0) < fill as real + 1.0
  {
    var p := Clamp(progress, 0.0, 1.0);
    ScaleBounds(barW as real, p);
    (barW as real * p).Floor
  }

  lemma ScaleBounds(w: real, p: real)
    requires w >= 0.0 && 0.0 <= p <= 1.0
    ensures 0.0 <= w * p <= w
  {
    assert w - w * p == w * (1.0 - p);
  }

  /** More progress never shrinks the fill. */
  lemma FillWidthMonotonic(barW: int, p1: real, p2: real)
    requires barW >= 0
    requires p1 <= p2
    ensures FillWidth(barW, p1) <= FillWidth(barW, p2)
  {
    var c1 := Clamp(p1, 0.0, 1.0);
    var c2 := Clamp(p2, 0.0, 1.0);
    assert c1 <= c2;
    assert barW as real * c2 - barW as real * c1 == barW as real * (c2 - c1);
    FloorMonotonic(barW as real * c1, barW as real * c2);
  }

  lemma FloorMonotonic(x: real, y: real)
    requires x <= y
    ensures x.Floor <= y.Floor
  {
    assert x.Floor as real <= x;
  }
}

=== FILE: decimal.dfy ===
/** Decimal rendering of natural numbers, as `std::to_string` prints a
    non-negative `int`, and its inverse. */
module Decimal {

  predicate IsDigit(ch: char) {
    '0' <= ch <= '9'
  }

  function DigitChar(d: nat): (ch: char)
    requires d < 10
    ensures IsDigit(ch)
    ensures ch == '0' <==> d == 0
  {
    "0123456789"[d]
  }

  function DigitValue(ch: char): (d: nat)
    requires IsDigit(ch)
    ensures d < 10
  {
    ch as int - '0' as int
  }

  lemma DigitRoundTrip(d: nat)
    requires d < 10
    ensures DigitValue(DigitChar(d)) == d
  {
  }

  /** The digits of `n`, most significant first, without leading zeros. */
  function ToString(n: nat): (s: string)
    ensures |s| >= 1
    ensures forall i :: 0 <= i < |s| ==> IsDigit(s[i])
    ensures s[0] == '0' <==> n == 0
    ensures |s| > 1 ==> s[0] != '0'
    decreases n
  {
    if n < 10 then [DigitChar(n)] else ToString(n / 10) + [DigitChar(n % 10)]
  }

  /** The value of a string of digits. */
  function Parse(s: string): nat
    requires forall i :: 0 <= i < |s| ==> IsDigit(s[i])
    decreases |s|
  {
    if |s| == 0 then 0 else Parse(s[..|s| - 1]) * 10 + DigitValue(s[|s| - 1])
  }

  /** Parsing undoes printing. */
  lemma {:induction false} ParseToString(n: nat)
    ensures Parse(ToString(n)) == n
    decreases n
  {
    var s := ToString(n);
    DigitRoundTrip(n % 10);
    if n >= 10 {
      ParseToString(n / 10);
      assert s[..|s| - 1] == ToString(n / 10);
    }
  }

  /** Distinct numbers print differently. */
  lemma ToStringInjective(a: nat, b: nat)
    requires a != b
    ensures ToString(a) != ToString(b)
  {
    ParseToString(a);
    ParseToString(b);
  }
}

=== FILE: numeric.dfy ===
/** The two clamping helpers of the C++ standard library that the player uses,
    over unbounded integers and mathematical reals. */
module Numeric {

  /** `std::max` on integers. */
  function MaxInt(a: int, b: int): (m: int)
    ensures m >= a && m >= b
    ensures m == a || m == b
  {
    if a < b then b else a
  }

  /** `std::clamp(v, lo, hi)`: the result lies in [lo, hi], and a value already
      inside the interval is returned as it is. */
  function Clamp(v: real, lo: real, hi: real): (c: real)
    requires lo <= hi
    ensures lo <= c <= hi
    ensures lo <= v <= hi ==> c == v
    ensures v < lo ==> c == lo
    ensures hi < v ==> c == hi
  {
    if v < lo then lo else if hi < v then hi else v
  }

  /** Clamping picks the point of [lo, hi] nearest to `v`. */
  lemma ClampIsNearest(v: real, lo: real, hi: real, y: real)
    requires lo <= hi
    requires lo <= y <= hi
    ensures Dist(Clamp(v, lo, hi), v) <= Dist(y, v)
  {
  }

  function Dist(a: real, b: real): real {
    if a < b then b - a else a - b
  }
}

=== FILE: video_player.dfy ===
/** The playback state machine of the SDL/FFmpeg video player: the playhead,
    the end-of-stream flag, pausing, seeking, the gated one-frame decode of
    each main-loop iteration, the keyboard and mouse dispatch, and the
    progress shown by the seek bar.

    Calls into FFmpeg and SDL are not modelled; their outcomes are inputs:
    whether `av_seek_frame` succeeded, which packets the demuxer still has and
    what the decoder makes of each, and the frame timestamp already converted
    to seconds. */
module VideoPlayer {
  import opened Wrappers
  import opened Numeric
  import opened Controls

  const SeekStepSeconds: real := 10.0

  /** The player context fields that carry behaviour (`current_seconds`,
      `duration_seconds`, `eof`) together with the two flags of the main loop
      (`paused`, `running`). A duration of 0 means the container reported
      none. */
  datatype PlayerState = PlayerState(
    current: real,
    duration: real,
    eof: bool,
    paused: bool,
    running: bool)

  /** The playhead stays inside the media whenever its length is known. */
  predicate Inv(p: PlayerState) {
    p.duration >= 0.0 && (p.duration > 0.0 ==> 0.0 <= p.current <= p.duration)
  }

  /** The state right after opening a file: the context defaults, with the
      container's duration taken only when it is positive, and the main loop
      running unpaused. */
  function Open(containerDuration: real): (p: PlayerState)
    ensures Inv(p)
    ensures p.duration > 0.0 <==> containerDuration > 0.0
    ensures containerDuration > 0.0 ==> p.duration == containerDuration
    ensures p.current == 0.0 && !p.eof && !p.paused && p.running
  {
    PlayerState(0.0, if containerDuration > 0.0 then containerDuration else 0.0, false, false, true)
  }

  // ---------------------------------------------------------------- seeking

  /** The position a seek aims for: clamped into [0, duration] when the
      duration is known, otherwise only kept non-negative. */
  function SeekTarget(duration: real, target: real): (t: real)
    ensures duration > 0.0 ==> 0.0 <= t <= duration
    ensures duration <= 0.0 ==> t >= 0.0
    ensures 0.0 <= target && (duration <= 0.0 || target <= duration) ==> t == target
    ensures target < 0.0 ==> t == 0.0
    ensures duration > 0.0 && target > duration ==> t == duration
  {
    if duration > 0.0 then Clamp(target, 0.0, duration)
    else if target < 0.0 then 0.0 else target  // std::max(0.0, target)
  }

  /** Of all admissible positions, the seek target is the one nearest to what
      was asked for. */
  lemma SeekTargetIsNearest(duration: real, target: real, y: real)
    requires 0.0 <= y
    requires duration > 0.0 ==> y <= duration
    ensures Dist(SeekTarget(duration, target), target) <= Dist(y, target)
  {
  }

  /** `seek_to`: a successful backward keyframe seek moves the playhead to the
      clamped target and leaves the end of stream; a failed one changes
      nothing. */
  function SeekTo(p: PlayerState, target: real, seekOk: bool): (r: PlayerState)
    ensures seekOk ==> r.current == SeekTarget(p.duration, target) && !r.eof
    ensures !seekOk ==> r == p
    ensures r.duration == p.duration && r.paused == p.paused && r.running == p.running
    ensures Inv(p) ==> Inv(r)
  {
    if seekOk then p.(current := SeekTarget(p.duration, target), eof := false) else p
  }

  // --------------------------------------------------------------- decoding

  /** What reading one packet leads to inside `decode_one_frame`'s loop. */
  datatype Packet =
    | OtherStream                      // not the video stream: skipped
    | Rejected                         // the decoder refused the packet: skipped
    | Pending                          // accepted, but no frame yet (EAGAIN): read on
    | DecodeFailed                     // receiving a frame failed: give up this call
    | Picture(seconds: Option<real>)   // a frame; its timestamp in seconds, if it has one

  /** Packets after which the loop reads another one. */
  predicate Skipped(pk: Packet) {
    pk.OtherStream? || pk.Rejected? || pk.Pending?
  }

  /** Index of the first packet that ends a decode call, or the number of
      packets when every remaining packet is skipped. */
  function FirstStop(packets: seq<Packet>): (k: nat)
    ensures k <= |packets|
    ensures forall i :: 0 <= i < k ==> Skipped(packets[i])
    ensures k < |packets| ==> !Skipped(packets[k])
  {
    if |packets| == 0 || !Skipped(packets[0]) then 0 else 1 + FirstStop(packets[1..])
  }

  /** The playhead taken from a frame's timestamp: clamped into the media when
      its length is known, taken as it is otherwise. */
  function StampSeconds(duration: real, seconds: real): (c: real)
    ensures duration > 0.0 ==> 0.0 <= c <= duration
    ensures duration <= 0.0 ==> c == seconds
    ensures duration > 0.0 && 0.0 <= seconds <= duration ==> c == seconds
    ensures duration > 0.0 && seconds < 0.0 ==> c == 0.0
    ensures duration > 0.0 && seconds > duration ==> c == duration
  {
    if duration > 0.0 then Clamp(seconds, 0.0, duration) else seconds
  }

  /** The state after one call of `decode_one_frame`, whether it produced a
      frame, and the packets left for later calls. */
  datatype DecodeStep = DecodeStep(player: PlayerState, ok: bool, rest: seq<Packet>)

  /** `decode_one_frame`. `packets` are the packets the demuxer still holds;
      reading past the last one is the read failure that marks the end of the
      stream. */
  function DecodeOneFrame(p: PlayerState, packets: seq<Packet>): (r: DecodeStep)
    decreases |packets|
    // out of packets: end of stream, no frame
    ensures FirstStop(packets) == |packets| ==> r.player == p.(eof := true) && !r.ok && r.rest == []
    // otherwise the call stops right after the first packet that is not skipped
    ensures FirstStop(packets) < |packets| ==> r.rest == packets[FirstStop(packets) + 1..] && r.player.eof == p.eof
    ensures r.ok <==> FirstStop(packets) < |packets| && packets[FirstStop(packets)].Picture?
    // only a frame with a timestamp moves the playhead
    ensures var k := FirstStop(packets);
            if k < |packets| && packets[k].Picture? && packets[k].seconds.Some?
            then r.player.current == StampSeconds(p.duration, packets[k].seconds.value)
            else r.player.current == p.current
    ensures r.player.duration == p.duration && r.player.paused == p.paused && r.player.running == p.running
    ensures Inv(p) ==> Inv(r.player)
  {
    if |packets| == 0 then
      DecodeStep(p.(eof := true), false, [])
    else
      match packets[0]
      case OtherStream => DecodeOneFrame(p, packets[1..])
      case Rejected => DecodeOneFrame(p, packets[1..])
      case Pending => DecodeOneFrame(p, packets[1..])
      case DecodeFailed => DecodeStep(p, false, packets[1..])
      case Picture(seconds) =>
        var current := if seconds.Some? then StampSeconds(p.duration, seconds.value) else p.current;
        DecodeStep(p.(current := current), true, packets[1..])
  }

  /** The decode gate of the main loop: a frame is decoded only while playing
      and not at the end of the stream; otherwise nothing is read. */
  function Advance(p: PlayerState, packets: seq<Packet>): (r: DecodeStep)
    ensures p.paused || p.eof ==> r.player == p && !r.ok && r.rest == packets
    ensures !p.paused && !p.eof ==> r == DecodeOneFrame(p, packets)
    ensures r.player.paused == p.paused && r.player.duration == p.duration
    ensures Inv(p) ==> Inv(r.player)
  {
    if !p.paused && !p.eof then DecodeOneFrame(p, packets) else DecodeStep(p, false, packets)
  }

  /** Once the end of the stream is reached, ticks stop reading, whatever
      packets the demuxer would deliver, until a seek succeeds. */
  lemma EndOfStreamIsSticky(p: PlayerState, packets: seq<Packet>, later: seq<Packet>)
    requires !p.paused && !p.eof
    requires FirstStop(packets) == |packets|
    ensures Advance(p, packets).player.eof
    ensures var q := Advance(p, packets).player; Advance(q, later) == DecodeStep(q, false, later)
  {
  }

  /** A successful seek leaves the end of stream, so the next tick decodes
      again unless paused. */
  lemma SeekReopensStream(p: PlayerState, target: real, packets: seq<Packet>)
    requires !p.paused
    ensures Advance(SeekTo(p, target, true), packets) == DecodeOneFrame(SeekTo(p, target, true), packets)
  {
  }

  // ----------------------------------------------------------------- events

  datatype Key = Space | LeftArrow | RightArrow | OtherKey

  datatype Event =
    | Quit
    | KeyDown(key: Key)
    | MouseDown(leftButton: bool, x: int, y: int)
    | OtherEvent

  /** Does this event make the player call `seek_to`? */
  predicate RequestsSeek(e: Event, videoW: int, videoH: int, duration: real) {
    match e
    case KeyDown(key) => key == LeftArrow || key == RightArrow
    case MouseDown(left, x, y) =>
      left &&
      var c := HitTest(x, y, videoW, videoH);
      c == BackButton || c == ForwardButton || (c == SeekBar && duration > 0.0)
    case _ => false
  }

  /** The target a left click on the controls seeks to, if any. */
  function ClickTarget(p: PlayerState, x: int, y: int, videoW: int, videoH: int): (t: Option<real>)
    ensures t.Some? <==> RequestsSeek(MouseDown(true, x, y), videoW, videoH, p.duration)
    ensures HitTest(x, y, videoW, videoH) == BackButton ==> t == Some(p.current - SeekStepSeconds)
    ensures HitTest(x, y, videoW, videoH) == ForwardButton ==> t == Some(p.current + SeekStepSeconds)
    ensures HitTest(x, y, videoW, videoH) == SeekBar && p.duration > 0.0 ==>
      t == Some(SeekBarTarget(x, y, videoW, videoH, p.duration)) && 0.0 <= t.value < p.duration
  {
    match HitTest(x, y, videoW, videoH)
    case BackButton => Some(p.current - SeekStepSeconds)
    case ForwardButton => Some(p.current + SeekStepSeconds)
    case SeekBar =>
      if p.duration > 0.0 then Some(SeekBarTarget(x, y, videoW, videoH, p.duration)) else None
    case NoControl => None
  }

  /** The position a click on the bar asks for: the click's fraction of the
      bar's width times the duration, so always inside [0, duration). */
  function SeekBarTarget(x: int, y: int, videoW: int, videoH: int, duration: real): (t: real)
    requires PointInRect(x, y, SeekBarRect(videoW, videoH))
    requires duration > 0.0
    ensures t == SeekBarRatio(x, y, videoW, videoH) * duration
    ensures 0.0 <= t < duration
    ensures x == BarX ==> t == 0.0
  {
    var ratio := SeekBarRatio(x, y, videoW, videoH);
    Scale(ratio, duration)
  }

  function Scale(ratio: real, d: real): (t: real)
    requires 0.0 <= ratio < 1.0 && d > 0.0
    ensures t == ratio * d
    ensures 0.0 <= t < d
    ensures ratio == 0.0 ==> t == 0.0
  {
    var t := ratio * d;
    RatioBounds(ratio, d, t);
    t
  }

  lemma RatioBounds(ratio: real, d: real, t: real)
    requires 0.0 <= ratio < 1.0 && d > 0.0
    requires t == ratio * d
    ensures 0.0 <= t < d
  {
    assert d - t == d * (1.0 - ratio);
    assert d * (1.0 - ratio) > 0.0;
  }

  /** One polled SDL event. `seekOk` is the outcome of the `av_seek_frame`
      call the event triggers, if it triggers one. */
  function HandleEvent(p: PlayerState, e: Event, seekOk: bool, videoW: int, videoH: int): (r: PlayerState)
    ensures r.duration == p.duration
    ensures Inv(p) ==> Inv(r)
    ensures r.running <==> p.running && !e.Quit?
    ensures r.paused != p.paused <==> e == KeyDown(Space)
    ensures (r.current != p.current || r.eof != p.eof) ==> seekOk && RequestsSeek(e, videoW, videoH, p.duration)
  {
    match e
    case Quit => p.(running := false)
    case KeyDown(key) =>
      if key == Space then p.(paused := !p.paused)
      else if key == LeftArrow then SeekTo(p, p.current - SeekStepSeconds, seekOk)
      else if key == RightArrow then SeekTo(p, p.current + SeekStepSeconds, seekOk)
      else p
    case MouseDown(left, x, y) =>
      if !left then p
      else
        var target := ClickTarget(p, x, y, videoW, videoH);
        if target.Some? then SeekTo(p, target.value, seekOk) else p
    case OtherEvent => p
  }

  /** Pressing space twice restores the pause flag and nothing else moves. */
  lemma SpaceTwiceRestores(p: PlayerState, ok1: bool, ok2: bool, videoW: int, videoH: int)
    ensures HandleEvent(HandleEvent(p, KeyDown(Space), ok1, videoW, videoH), KeyDown(Space), ok2, videoW, videoH) == p
  {
  }

  /** The arrow keys and the two buttons seek ten seconds back or forward. */
  lemma StepSeeks(p: PlayerState, seekOk: bool, videoW: int, videoH: int, x: int, y: int)
    ensures HandleEvent(p, KeyDown(LeftArrow), seekOk, videoW, videoH) == SeekTo(p, p.current - 10.0, seekOk)
    ensures HandleEvent(p, KeyDown(RightArrow), seekOk, videoW, videoH) == SeekTo(p, p.current + 10.0, seekOk)
    ensures PointInRect(x, y, BackButtonRect(videoH)) ==>
      HandleEvent(p, MouseDown(true, x, y), seekOk, videoW, videoH) == SeekTo(p, p.current - 10.0, seekOk)
    ensures PointInRect(x, y, ForwardButtonRect(videoH)) ==>
      HandleEvent(p, MouseDown(true, x, y), seekOk, videoW, videoH) == SeekTo(p, p.current + 10.0, seekOk)
  {
    if PointInRect(x, y, BackButtonRect(videoH)) {
      assert HitTest(x, y, videoW, videoH) == BackButton;
    }
    if PointInRect(x, y, ForwardButtonRect(videoH)) {
      assert HitTest(x, y, videoW, videoH) == ForwardButton;
    }
  }

  /** A successful click on the seek bar of a media of known length lands in
      [0, duration); on a media of unknown length the bar does nothing. */
  lemma SeekBarClick(p: PlayerState, x: int, y: int, videoW: int, videoH: int, seekOk: bool)
    requires Inv(p)
    requires PointInRect(x, y, SeekBarRect(videoW, videoH))
    ensures p.duration > 0.0 && seekOk ==>
      var r := HandleEvent(p, MouseDown(true, x, y), seekOk, videoW, videoH);
      0.0 <= r.current < p.duration && !r.eof
    ensures p.duration <= 0.0 ==> HandleEvent(p, MouseDown(true, x, y), seekOk, videoW, videoH) == p
  {
    assert HitTest(x, y, videoW, videoH) == SeekBar;
  }

  /** An input as the event loop sees it: the event and the outcome of the
      seek it may cause. */
  datatype Input = Input(event: Event, seekOk: bool)

  /** The inner `SDL_PollEvent` loop: every pending event is handled in turn,
      a quit included (the loop exits only at the next iteration's test). */
  function HandleEvents(p: PlayerState, inputs: seq<Input>, videoW: int, videoH: int): (r: PlayerState)
    decreases |inputs|
    ensures r.duration == p.duration
    ensures Inv(p) ==> Inv(r)
    ensures r.running <==> p.running && forall i :: 0 <= i < |inputs| ==> !inputs[i].event.Quit?
    ensures NoKeyPresses(inputs) ==> r.paused == p.paused
  {
    if |inputs| == 0 then p
    else
      var q := HandleEvent(p, inputs[0].event, inputs[0].seekOk, videoW, videoH);
      assert forall i :: 1 <= i < |inputs| ==> inputs[1..][i - 1] == inputs[i];
      HandleEvents(q, inputs[1..], videoW, videoH)
  }

  /** One iteration of the main loop: the pending events, then the gated
      decode. */
  function Tick(p: PlayerState, inputs: seq<Input>, packets: seq<Packet>, videoW: int, videoH: int): (r: DecodeStep)
    ensures r.player.duration == p.duration
    ensures Inv(p) ==> Inv(r.player)
    ensures NoKeyPresses(inputs) ==> r.player.paused == p.paused
    ensures r.player.running <==> p.running && forall i :: 0 <= i < |inputs| ==> !inputs[i].event.Quit?
  {
    Advance(HandleEvents(p, inputs, videoW, videoH), packets)
  }

  /** What one main-loop iteration sees: the pending events, and the packets
      the demuxer holds when the iteration reaches its decode. A seek
      repositions the demuxer, so the packets of the next iteration need not
      be the ones the previous iteration left unread. */
  datatype Iteration = Iteration(inputs: seq<Input>, packets: seq<Packet>)

  predicate NoKeyPresses(inputs: seq<Input>) {
    forall i :: 0 <= i < |inputs| ==> !inputs[i].event.KeyDown?
  }

  /** The `while (running)` main loop over a series of iterations; it stops
      as soon as an iteration has handled a quit. */
  function Run(p: PlayerState, iterations: seq<Iteration>, videoW: int, videoH: int): (r: PlayerState)
    ensures r.duration == p.duration
    ensures !p.running ==> r == p
    ensures (forall i :: 0 <= i < |iterations| ==> NoKeyPresses(iterations[i].inputs)) ==> r.paused == p.paused
    decreases |iterations|
  {
    if |iterations| == 0 || !p.running then p
    else
      assert forall i :: 1 <= i < |iterations| ==> iterations[1..][i - 1] == iterations[i];
      Run(Tick(p, iterations[0].inputs, iterations[0].packets, videoW, videoH).player, iterations[1..], videoW, videoH)
  }

  /** Any run of the main loop from an opened file keeps the playhead inside
      the media. */
  lemma {:induction false} RunKeepsInvariant(p: PlayerState, iterations: seq<Iteration>, videoW: int, videoH: int)
    requires Inv(p)
    ensures Inv(Run(p, iterations, videoW, videoH))
    decreases |iterations|
  {
    if |iterations| > 0 && p.running {
      var step := Tick(p, iterations[0].inputs, iterations[0].packets, videoW, videoH);
      RunKeepsInvariant(step.player, iterations[1..], videoW, videoH);
    }
  }

  /** Playback resumes after the end of the stream: an iteration whose Left
      key seeks successfully clears `eof` and decodes the next frame the
      repositioned demuxer delivers. */
  lemma SeekResumesAfterEndOfStream(p: PlayerState, seconds: real, videoW: int, videoH: int)
    requires Inv(p) && p.eof && !p.paused
    ensures var step := Tick(p, [Input(KeyDown(LeftArrow), true)], [Picture(Some(seconds))], videoW, videoH);
            step.ok && !step.player.eof && step.player.current == StampSeconds(p.duration, seconds)
  {
    var q := HandleEvent(p, KeyDown(LeftArrow), true, videoW, videoH);
    assert !q.eof && !q.paused;
    assert HandleEvents(p, [Input(KeyDown(LeftArrow), true)], videoW, videoH) == HandleEvents(q, [], videoW, videoH);
  }

  // --------------------------------------------------------------- progress

  /** The fraction of the media played, 0 when the length is unknown. */
  function Progress(p: PlayerState): (pr: real)
    ensures p.duration <= 0.0 ==> pr == 0.0
    ensures Inv(p) ==> 0.0 <= pr <= 1.0
    ensures p.duration > 0.0 ==> pr * p.duration == p.current
    ensures p.duration > 0.0 && p.current == p.duration ==> pr == 1.0
  {
    if p.duration > 0.0 then p.current / p.duration else 0.0
  }

  /** The filled width of the bar drawn for this state. */
  function ProgressFill(p: PlayerState, videoW: int): (fill: int)
    ensures 0 <= fill <= SeekBarWidth(videoW)
    ensures p.duration <= 0.0 ==> fill == 0
  {
    FillWidth(SeekBarWidth(videoW), Progress(p))
  }

  /** Playing further never shrinks the filled part of the bar. */
  lemma ProgressFillMonotonic(p: PlayerState, q: PlayerState, videoW: int)
    requires p.duration == q.duration
    requires p.current <= q.current
    ensures ProgressFill(p, videoW) <= ProgressFill(q, videoW)
  {
    if p.duration > 0.0 {
      DivMonotonic(p.current, q.current, p.duration);
    }
    FillWidthMonotonic(SeekBarWidth(videoW), Progress(p), Progress(q));
  }
}

=== FILE: wrappers.dfy ===
/** Optional values, used wherever the modelled code reads "a value or nothing":
    a frame's timestamp that may be absent, a line that may not have been sent,
    a connection that may not have been accepted. */
module Wrappers {

  datatype Option<+T> = None | Some(value: T)
}
